=== FILE: README.md ===
# Image upload service: a Dafny model

The service is a small Go HTTP server (`main.go`). A client POSTs a
multipart form to `/upload`. The handler checks and stores every part sent
under the field `file`:

1. it rejects parts whose recorded size (`FileHeader.Size`) is larger than `MAX_UPLOAD_SIZE` (1 MiB);
2. it opens the part and reads its first 512 bytes;
3. it sniffs the content type and only accepts `image/jpeg` and `image/png`;
4. it seeks back and makes sure `./uploads` exists;
5. it creates `./uploads/<UnixNano><ext>`;
6. it copies the part into that file through a `Progress` observer, which
   counts the bytes and prints a line per write.

The first failing step ends the request with 400 or 500. If every part is
stored, the answer is a 302 redirect to `/` with the body
`Upload successful`.

The model is split into five modules:

- `GoTypes` (`go_types.dfy`) holds the Go value types involved: `byte`,
  `int64` and its two's-complement wrap-around `Wrap64`, non-empty chunks,
  and `Option` for `error` results.
- `ProgressSink` (`progress.dfy`) covers `Progress.Write` and
  `Progress.Print` as pure functions. `WriteAll` folds them over the chunks
  of one copy. Each printed line is recorded in a log instead of being
  written to standard output.
- `Naming` (`naming.dfy`) builds the destination name. It has `%d`
  formatting (`Decimal`) with a parser that inverts it (`ParseDecimal`), and
  `filepath.Ext` (`Ext`) with an independent characterisation (`IsExt`).
  The path `DestPath` also has an inverse, `ParseDestPath`.
- `Upload` (`upload.dfy`) is the POST branch of `uploadHandler`:
  - `ProcessPart` runs one iteration of the loop;
  - `RunParts` is the loop itself, for any per-part handling;
  - `ProcessParts` is that loop with the handler's own per-part handling;
  - `HandlePost` is the whole branch, including the form-parse failure.

  Every I/O outcome of a part (open, read of the prefix, seek, directory
  creation, file creation, copy) is an input, bundled in `PartEnv` together
  with the `time.Now().UnixNano()` reading. `http.DetectContentType` is an
  arbitrary function `sniff` from 512-byte buffers to strings. The buffer
  it sees is the bytes `Read` delivered, padded with the zeros of
  `make([]byte, 512)`.
- `UploadProperties` (`upload_properties.dfy`) holds the guarantees:
  - the order of the checks and the status mapping;
  - the size boundary and the type allow-list;
  - short-circuiting, and which files are left on disk;
  - the shape of the destination name;
  - what the progress observer prints during a copy, completed or failed.

Three behaviours of the code are easy to miss; the model follows the code:

- The code answers 500 not only when seeking back fails, but also when
  opening the part, reading its prefix or creating `./uploads` fails.
- The allow-list is fixed in the code (`image/jpeg`, `image/png`), not a
  parameter.
- An empty part makes the first `Read` return `io.EOF`. The code then
  answers 500 (read failure) before sniffing. The model covers this through
  the read outcome, which is an input.

## Model

| member | source | states |
|---|---|---|
| GoTypes.Wrap64 | main.go:78 | `int64` addition: the exact sum when it fits, otherwise the value congruent to it modulo 2^64 in the `int64` range |
| GoTypes.WrapCongruent | main.go:78 | exact sums that agree modulo 2^64 wrap to the same `int64` |
| GoTypes.WrapAdd | main.go:78 | adding to an already wrapped count and wrapping again gives the wrap of the exact total |
| ProgressSink.Start | main.go:155-157 | the observer for a part holds the part's recorded size and a zero count, so it would print `DONE!` before any write only for an empty recorded size |
| ProgressSink.Print | main.go:84-91 | prints `DONE!` exactly when `BytesRead` equals `TotalSize`, and otherwise the progress line carrying `BytesRead` |
| ProgressSink.Write | main.go:76-81 | returns `n = len(p)` and a nil error; `TotalSize` is unchanged; `BytesRead` becomes the `int64` wrap of `BytesRead + len(p)`, which is exactly that sum when it does not overflow; the line printed is `DONE!` exactly when the new count equals `TotalSize`, otherwise the progress line with the new count |
| ProgressSink.WriteAll | main.go:155-159 | a copy through the observer prints one line per chunk and never changes `TotalSize` |
| ProgressSink.WriteAllWraps | main.go:76-81 | whatever the counters, the count after a sequence of writes is the `int64` wrap of the starting count plus the total length of the chunks |
| ProgressSink.WriteAllCounts | main.go:76-81 | without overflow, the count after a sequence of writes is the starting count plus the total length of the chunks |
| ProgressSink.WriteAllLine | main.go:84-91 | write `i` prints `DONE!` exactly when the running count after it equals `TotalSize`, and otherwise prints that running count |
| ProgressSink.DoneAtMostOnce | main.go:84-91 | without overflow, and since every chunk is non-empty, no two writes of one copy both print `DONE!` |
| ProgressSink.DoneOnLastWrite | main.go:155-159 | a fresh observer whose recorded size equals the bytes copied prints `DONE!` on the last write and on no earlier one |
| ProgressSink.NeverDoneWhenSizeUnreached | main.go:84-91 | without overflow, a recorded size above the final count, or not above the starting count, never yields `DONE!` |
| Naming.Decimal | main.go:147 | `%d` output is non-empty, all digits except a leading `-`, starts with `-` exactly for negative numbers, and has no leading zero (the only number printed starting with `0` is 0 itself, printed as `0`) |
| Naming.DecimalRoundTrip | main.go:147 | parsing the `%d` output gives back the number |
| Naming.Ext | main.go:147 | the result is the extension of the path as characterised by `IsExt`: a suffix that starts at the last dot of the last path element, or empty when that element has no dot |
| Naming.ExtUnique | main.go:147 | that characterisation determines the extension uniquely |
| Naming.DestPath | main.go:147 | the destination lies directly in `./uploads/`: no `/` follows the prefix, and the name does not start with a dot |
| Naming.DestPathRoundTrip | main.go:147 | the destination path parses back into exactly the timestamp and the extension it was built from |
| Naming.DestPathInjective | main.go:147 | equal destination paths come from equal timestamps and equal extensions |
| Upload.StatusOf | main.go:109-161 | every failed step answers 400 or 500; 500 exactly for opening, reading the prefix, seeking back or creating the directory; a failed create or copy answers 400 |
| Upload.Pad | main.go:122-123 | the sniffed buffer holds the bytes that were read, followed by zeros up to 512 bytes |
| Upload.ProcessPart | main.go:108-164 | a part is accepted exactly when its file is stored; a stored file is the created one; nothing is created for an unopened part; the part is open exactly unless it was rejected for its size or at opening; progress is printed only once a file exists; a size rejection happens before opening; a rejected part has a created file exactly when its copy failed |
| Upload.RunParts | main.go:108-165 | only a prefix of the parts is handled, at least one when there are any, each by the per-part handling, and all but the last are accepted; a redirect means every part was handled and the last was accepted; an error answer is the failure of the last handled part, which was rejected |
| Upload.RunPartsAcceptsAll | main.go:108-165 | the request ends in the redirect exactly when every part is accepted |
| Upload.RunPartsStops | main.go:108-164 | the first rejected part is the last one handled, and its failure is the answer |
| Upload.ProcessParts | main.go:108-165 | the handler's own loop: it handles at most the parts there are, and each handled part's outcome is the per-part handling of that part |
| Upload.FileParts | main.go:106 | the parts looped over are those under the key `file`, and there are none exactly when the key is missing or holds no part |
| Upload.HandlePost | main.go:100-166 | a form that fails to parse is answered 400 with the parser's message and no part is handled; a parsed form is answered by the loop over its `file` parts, which handles a prefix of them, each by the per-part handling, and redirects exactly when every one of them is accepted |
| UploadProperties.RejectedAtFirstFailure | main.go:108-163 | a part is rejected at a step exactly when that step fails and no earlier step in the handler's order fails |
| UploadProperties.RejectionMessage | main.go:114-162 | a part rejected at opening, reading, seeking, creating the directory or creating the file answers with that call's error text, and a failed copy with the error that stopped it |
| UploadProperties.AcceptedIffNoStepFails | main.go:108-163 | a part is stored exactly when none of its eight steps fails |
| UploadProperties.SizeLimit | main.go:109-112 | the limit is 1048576; the size rejection, naming the file, happens exactly for sizes above it; it answers 400 before the part is opened or any file is created; exactly 1 MiB passes |
| UploadProperties.TypeAllowList | main.go:122-133 | a stored part was sniffed as `image/jpeg` or `image/png`; an opened, readable part of any other type is rejected with the fixed message and 400 |
| UploadProperties.LoopStatus | main.go:108-165 | whatever the per-part handling, the answer is 302 only for the redirect, 500 when the last handled part failed at open, read, seek or directory creation, and 400 when it failed at any other step |
| UploadProperties.StatusMapping | main.go:100-166 | every answer is 302, 400 or 500: 302 exactly for the redirect; 500 exactly for open, read, seek and directory failures; 400 exactly for a parse failure and for size, type, create and copy failures |
| UploadProperties.WrittenPaths | main.go:147-151 | outcomes that each created the matching path leave exactly those paths on disk, in order |
| UploadProperties.WrittenOfRun | main.go:108-164 | for any per-part handling that creates a part's own file whenever it accepts it: when the first `j` parts are accepted, all of them are handled and their files are exactly those `j` files, in order |
| UploadProperties.WrittenPrefix | main.go:108-164 | when the first `j` parts are accepted, all of them are handled and each leaves exactly its own destination file, in order |
| UploadProperties.StoredFileOf | main.go:147-163 | a stored file lies at its part's destination and holds every byte the copy read |
| UploadProperties.ShortCircuit | main.go:108-164 | after the first rejected part no further part is handled, so none is opened or written, and that part's failure is the answer |
| UploadProperties.NoRollback | main.go:108-164 | every part handled before the last one keeps its stored file with its full content, whatever happens later |
| UploadProperties.FilesLeftOnDisk | main.go:108-164 | after a request the disk holds the destination of every part before the last handled one, plus the last one's destination exactly when it was created |
| UploadProperties.RedirectIffAllAccepted | main.go:108-165 | the request is answered with the redirect exactly when every `file` part is accepted |
| UploadProperties.AllStored | main.go:108-166 | if every part passes, the answer is the 302 redirect to `/` with body `Upload successful`, and every part's destination is written in order |
| UploadProperties.NoFilePartsRedirects | main.go:106-166 | a form with no `file` part is answered with the redirect and handles nothing |
| UploadProperties.DestinationShape | main.go:147 | a created file is `./uploads/`, then the decimal clock reading, then the extension of the recorded filename, and it parses back into those two pieces |
| UploadProperties.CreatedPath | main.go:147-151 | the only file a part can create is its destination path |
| UploadProperties.DistinctStampsDistinctFiles | main.go:147 | parts created at different clock readings get different files |
| UploadProperties.ConcatLength | main.go:159 | the stored content is as long as the chunks copied |
| UploadProperties.CopyProgress | main.go:147-163 | whenever the destination was created, the lines printed are those of a fresh observer for the recorded size fed the chunks the copy read, whether the copy completed or failed |
| UploadProperties.StoredPartProgress | main.go:155-163 | a stored part's copy goes through a fresh observer holding the recorded size; its final count is the stored file's length; it prints `DONE!` once, on the last write, when the recorded size equals the bytes copied, and never when the recorded size is larger or not positive |

## Left out

- `main`, `handleRequest` and the GET branch of `uploadHandler`: these are
  flag parsing, listener setup and template rendering, with no decision logic.
- The inner workings of `ParseMultipartForm` (including its 32 MiB memory
  argument), `DetectContentType`, `os.MkdirAll`, `os.Create`, `io.Copy` and
  `time.Now`. Their results are inputs of the model.
- `defer file.Close()` and `defer f.Close()`: closing descriptors has no
  effect on the answer or on which files exist.
- Output to standard output and to the response writer. Printed lines are a
  log. `http.Error` appends a newline to the message, and the model's error
  message leaves it out.
- The bytes of a file whose copy failed part-way: the model records that the
  file was created, but not its partial content.
- Concurrency between requests, and two parts named at the same nanosecond.
  The clock reading is an input per part, and `DistinctStampsDistinctFiles`
  only covers distinct readings.
- ProgressSink.WriteAllCounts: assumes the count does not overflow `int64`.
  `WriteAllWraps` states the count with the wrap-around for every input.
- ProgressSink.WriteAllLine: assumes no overflow, as `WriteAllCounts` does.
- ProgressSink.DoneAtMostOnce and ProgressSink.NeverDoneWhenSizeUnreached:
  assume no overflow; a wrapped count could meet the recorded size again.
- UploadProperties.StoredPartProgress: assumes the bytes copied fit in an
  `int64`, as `WriteAllCounts` does.
- The link between a part's size, its sniffed prefix and its copied bytes.
  Go's multipart reader sets `FileHeader.Size` to the number of bytes it
  stored for the part. The copy after `Seek(0)` re-reads the same bytes that
  were sniffed. The model takes the size, the prefix read and the copied
  chunks as independent inputs, so it covers more cases than the program can
  produce. For example, the "size larger than the bytes copied" case of
  `StoredPartProgress` cannot occur in the program.
- Byte-level file names: Go strings are byte sequences, and the model uses
  Dafny strings, which are sequences of characters. `Ext` is unaffected,
  because the bytes of `.` and `/` never occur inside a multi-byte UTF-8
  sequence.
- Windows path separators: `filepath.Ext` also stops at `\` on Windows. `Ext`
  treats `/` as the only separator, as `filepath.Ext` does on Unix systems.

=== FILE: go_types.dfy ===
/**
  The few Go value types the upload handler relies on: bytes, 64-bit signed
  integers with their wrap-around, and an optional value (used for Go's
  `error` results, where `None` plays the part of `nil`).
 */
module GoTypes {

  /** Go's `byte` (an alias of `uint8`). */
  type byte = b: int | 0 <= b < 256

  const MinInt64: int := -0x8000_0000_0000_0000
  const MaxInt64: int := 0x7FFF_FFFF_FFFF_FFFF
  const TwoTo64: int := 0x1_0000_0000_0000_0000

  /** Go's `int64`. */
  type Int64 = x: int | -0x8000_0000_0000_0000 <= x <= 0x7FFF_FFFF_FFFF_FFFF

  /** A non-empty slice of bytes no longer than Go's `int` allows. The `Read`
      of an `io.TeeReader` passes its bytes to the writer only when it read at
      least one, so every chunk the progress observer sees has this shape. */
  type Chunk = c: seq<byte> | 0 < |c| <= 0x7FFF_FFFF_FFFF_FFFF witness [0]

  /** The two's-complement result of an `int64` operation whose exact value is `x`. */
  function Wrap64(x: int): (r: Int64)
    ensures MinInt64 <= x <= MaxInt64 ==> r == x
    ensures (x - r) % TwoTo64 == 0
  {
    (x - MinInt64) % TwoTo64 + MinInt64
  }

  /** Exact values that agree modulo 2^64 wrap to the same `int64`. */
  lemma WrapCongruent(x: int, y: int)
    requires (x - y) % TwoTo64 == 0
    ensures Wrap64(x) == Wrap64(y)
  {
    var rx, ry := Wrap64(x), Wrap64(y);
    var a, b, c := (x - rx) / TwoTo64, (x - y) / TwoTo64, (y - ry) / TwoTo64;
    assert x - rx == a * TwoTo64;
    assert x - y == b * TwoTo64;
    assert y - ry == c * TwoTo64;
    assert rx - ry == (b + c - a) * TwoTo64;
  }

  /** Wrapping after each addition is wrapping once at the end. */
  lemma WrapAdd(x: int, c: int)
    ensures Wrap64(Wrap64(x) + c) == Wrap64(x + c)
  {
    WrapCongruent(Wrap64(x) + c, x + c);
  }

  datatype Option<+T> = None | Some(value: T)
}

=== FILE: naming.dfy ===
/**
  How the handler names a stored part: `./uploads/<UnixNano as %d><filepath.Ext(filename)>`.
  Formatting comes with a parser that inverts it, so the name can be shown to
  determine the timestamp and the extension it was built from.
 */
module Naming {
  import opened GoTypes

  /** The storage root handed to `os.MkdirAll`. */
  const UploadDir: string := "./uploads"

  /** The prefix of every destination path. */
  const DirPrefix: string := UploadDir + "/"

  predicate IsDigit(c: char)
  {
    '0' <= c <= '9'
  }

  predicate AllDigits(s: string)
  {
    forall i :: 0 <= i < |s| ==> IsDigit(s[i])
  }

  function DigitChar(d: nat): (c: char)
    requires d < 10
    ensures IsDigit(c)
    ensures c as int - '0' as int == d
  {
    "0123456789"[d]
  }

  /** The decimal digits of a natural number, without leading zeros. */
  function Digits(n: nat): (s: string)
    ensures 0 < |s| && AllDigits(s)
    ensures 1 < |s| || 0 < n ==> s[0] != '0'
    decreases n
  {
    if n < 10 then [DigitChar(n)] else Digits(n / 10) + [DigitChar(n % 10)]
  }

  /** Go's `fmt` verb `%d` applied to an integer. */
  function Decimal(n: int): (s: string)
    ensures 0 < |s|
    ensures forall i :: 0 <= i < |s| ==> IsDigit(s[i]) || (i == 0 && s[i] == '-')
    ensures s[0] == '-' <==> n < 0
    ensures var k := if n < 0 then 1 else 0;
            k < |s| && (k + 1 < |s| || n < 0 ==> s[k] != '0')
  {
    if n < 0 then "-" + Digits(-n) else Digits(n)
  }

  /** The number a string of decimal digits denotes. */
  function DigitsValue(s: string): nat
    requires AllDigits(s)
  {
    if |s| == 0 then 0
    else
      assert IsDigit(s[|s| - 1]);
      DigitsValue(s[..|s| - 1]) * 10 + (s[|s| - 1] as int - '0' as int)
  }

  /** Reads back what `Decimal` prints: an optional minus sign and at least one digit. */
  function ParseDecimal(s: string): (r: Option<int>)
    ensures r.Some? ==> 0 < |s|
  {
    if 0 < |s| && s[0] == '-' then
      var rest := s[1..];
      if 0 < |rest| && AllDigits(rest) then Some(0 - DigitsValue(rest)) else None
    else if 0 < |s| && AllDigits(s) then Some(DigitsValue(s))
    else None
  }

  lemma {:induction false} DigitsRoundTrip(n: nat)
    ensures DigitsValue(Digits(n)) == n
    decreases n
  {
    if n >= 10 {
      var s := Digits(n);
      DigitsRoundTrip(n / 10);
      assert s[..|s| - 1] == Digits(n / 10);
    }
  }

  /** Parsing what `%d` printed gives back the number. */
  lemma DecimalRoundTrip(n: int)
    ensures ParseDecimal(Decimal(n)) == Some(n)
  {
    if n < 0 {
      DigitsRoundTrip(-n);
      assert Decimal(n)[1..] == Digits(-n);
    } else {
      DigitsRoundTrip(n);
    }
  }

  /** `e` is `filepath.Ext(path)` on a system whose separator is `/`: the
      suffix from the last dot of the last path element, or empty when that
      element holds no dot. */
  ghost predicate IsExt(path: string, e: string)
  {
    && |e| <= |path|
    && path[|path| - |e|..] == e
    && (e != [] ==> e[0] == '.' && forall k :: 1 <= k < |e| ==> e[k] != '.' && e[k] != '/')
    && (e == [] ==> forall j :: 0 <= j < |path| && path[j] == '.' ==>
                      exists k :: j < k < |path| && path[k] == '/')
  }

  /** Scans `path` backwards from position `i`, as `filepath.Ext`'s loop does. */
  function ExtFrom(path: string, i: nat): (e: string)
    requires i <= |path|
    requires forall j :: i <= j < |path| ==> path[j] != '.' && path[j] != '/'
    ensures IsExt(path, e)
    decreases i
  {
    if i == 0 then ""
    else if path[i - 1] == '/' then ""
    else if path[i - 1] == '.' then path[i - 1..]
    else ExtFrom(path, i - 1)
  }

  /** `filepath.Ext`. */
  function Ext(path: string): (e: string)
    ensures IsExt(path, e)
  {
    ExtFrom(path, |path|)
  }

  /** `IsExt` pins the extension down: `Ext` is the only function meeting it. */
  lemma ExtUnique(path: string, e1: string, e2: string)
    requires IsExt(path, e1) && IsExt(path, e2)
    ensures e1 == e2
  {
  }

  /** Index of the first `.` in `s`, or `|s|` when there is none. */
  function FirstDot(s: string): (k: nat)
    ensures k <= |s|
    ensures forall j :: 0 <= j < k ==> s[j] != '.'
    ensures k < |s| ==> s[k] == '.'
  {
    if |s| == 0 || s[0] == '.' then 0 else 1 + FirstDot(s[1..])
  }

  /** `./uploads/<stamp><ext>`: the path `os.Create` is given for a part whose
      name was read at time `stamp` (nanoseconds since the Unix epoch). */
  function DestPath(stamp: Int64, filename: string): (path: string)
    ensures |DirPrefix| < |path| && path[..|DirPrefix|] == DirPrefix
    ensures forall i :: |DirPrefix| <= i < |path| ==> path[i] != '/'
    ensures path[|DirPrefix|] != '.'
  {
    var d := Decimal(stamp);
    var e := Ext(filename);
    assert forall i :: 0 <= i < |e| ==> e[i] != '/';
    var path := DirPrefix + d + e;
    assert path[|DirPrefix|..] == d + e;
    path
  }

  /** The timestamp and extension a stored file's name is made of. */
  datatype StoredName = StoredName(stamp: int, ext: string)

  /** Splits a destination path back into its timestamp and extension. */
  function ParseDestPath(path: string): Option<StoredName>
  {
    if |path| < |DirPrefix| || path[..|DirPrefix|] != DirPrefix then None
    else
      var rest := path[|DirPrefix|..];
      var k := FirstDot(rest);
      match ParseDecimal(rest[..k])
      case None => None
      case Some(stamp) => Some(StoredName(stamp, rest[k..]))
  }

  /** The destination path records the timestamp and the extension it was built from. */
  lemma DestPathRoundTrip(stamp: Int64, filename: string)
    ensures ParseDestPath(DestPath(stamp, filename)) == Some(StoredName(stamp, Ext(filename)))
  {
    var path := DestPath(stamp, filename);
    var d := Decimal(stamp);
    var e := Ext(filename);
    var rest := path[|DirPrefix|..];
    assert rest == d + e;
    FirstDotOfJoin(d, e);
    assert rest[..|d|] == d;
    assert rest[|d|..] == e;
    DecimalRoundTrip(stamp);
  }

  lemma {:induction false} FirstDotOfJoin(d: string, e: string)
    requires forall i :: 0 <= i < |d| ==> d[i] != '.'
    requires e == [] || e[0] == '.'
    ensures FirstDot(d + e) == |d|
    decreases |d|
  {
    if |d| > 0 {
      assert (d + e)[1..] == d[1..] + e;
      FirstDotOfJoin(d[1..], e);
    } else {
      assert d + e == e;
    }
  }

  /** Parts read at different instants are stored under different names, and so
      are parts whose filenames carry different extensions. */
  lemma DestPathInjective(stamp1: Int64, filename1: string, stamp2: Int64, filename2: string)
    requires DestPath(stamp1, filename1) == DestPath(stamp2, filename2)
    ensures stamp1 == stamp2
    ensures Ext(filename1) == Ext(filename2)
  {
    DestPathRoundTrip(stamp1, filename1);
    DestPathRoundTrip(stamp2, filename2);
  }
}

=== FILE: progress.dfy ===
/**
  The `Progress` write-observer that instruments the copy of one uploaded part
  to disk. Printing is modelled as the line it would print; a run of writes
  yields the log of printed lines.
 */
module ProgressSink {
  import opened GoTypes

  /** Counters of one copy: the recorded size of the part and the bytes seen so far. */
  datatype Progress = Progress(totalSize: Int64, bytesRead: Int64)

  /** A line printed to standard output: `DONE!` or `File upload in progress: <n>`. */
  datatype Line = Done | InProgress(bytesRead: int)

  /** The observer the handler builds for a part: `&Progress{TotalSize: size}`. */
  function Start(totalSize: Int64): (pr: Progress)
    ensures pr.totalSize == totalSize && pr.bytesRead == 0
    ensures Print(pr) == Done <==> totalSize == 0
  {
    Progress(totalSize, 0)
  }

  /** `Progress.Print`: the line printed for the current counters. */
  function Print(pr: Progress): (l: Line)
    ensures l == Done <==> pr.bytesRead == pr.totalSize
    ensures l.InProgress? ==> l.bytesRead == pr.bytesRead
  {
    if pr.bytesRead == pr.totalSize then Done else InProgress(pr.bytesRead)
  }

  /** What one call of `Progress.Write` returns and leaves behind. */
  datatype WriteStep = WriteStep(pr: Progress, n: int, err: Option<string>, line: Line)

  /** `Progress.Write(p)`: count the chunk, then print. */
  function Write(pr: Progress, p: seq<byte>): (r: WriteStep)
    requires |p| <= MaxInt64
    ensures r.n == |p| && r.err == None
    ensures r.pr.totalSize == pr.totalSize
    ensures pr.bytesRead + |p| <= MaxInt64 ==> r.pr.bytesRead == pr.bytesRead + |p|
    ensures r.pr.bytesRead == Wrap64(pr.bytesRead + |p|)
    ensures r.line == Done <==> r.pr.bytesRead == pr.totalSize
    ensures r.line != Done ==> r.line == InProgress(r.pr.bytesRead)
  {
    var next := Progress(pr.totalSize, Wrap64(pr.bytesRead + |p|));
    WriteStep(next, |p|, None, Print(next))
  }

  /** Total number of bytes in a sequence of chunks. */
  function Sum(chunks: seq<Chunk>): nat
  {
    if |chunks| == 0 then 0 else Sum(chunks[..|chunks| - 1]) + |chunks[|chunks| - 1]|
  }

  /** Counters and printed lines after a sequence of writes. */
  datatype Run = Run(pr: Progress, log: seq<Line>)

  /** The observer fed the chunks of one `io.Copy`, in order. */
  function WriteAll(pr: Progress, chunks: seq<Chunk>): (r: Run)
    ensures |r.log| == |chunks|
    ensures r.pr.totalSize == pr.totalSize
    decreases |chunks|
  {
    if |chunks| == 0 then Run(pr, [])
    else
      var before := WriteAll(pr, chunks[..|chunks| - 1]);
      var w := Write(before.pr, chunks[|chunks| - 1]);
      Run(w.pr, before.log + [w.line])
  }

  /** A prefix of the chunks holds no more bytes than all of them. */
  lemma {:induction false} SumPrefix(chunks: seq<Chunk>, k: nat)
    requires k <= |chunks|
    ensures Sum(chunks[..k]) <= Sum(chunks)
    ensures k < |chunks| ==> Sum(chunks[..k]) + |chunks[k]| <= Sum(chunks)
    decreases |chunks|
  {
    if k < |chunks| {
      var init := chunks[..|chunks| - 1];
      if k == |chunks| - 1 {
        assert init == chunks[..k];
      } else {
        SumPrefix(init, k);
        assert init[..k] == chunks[..k];
        assert init[k] == chunks[k];
      }
    } else {
      assert chunks[..k] == chunks;
    }
  }

  /** Without overflow, `BytesRead` ends as its start plus every byte written. */
  lemma {:induction false} WriteAllCounts(pr: Progress, chunks: seq<Chunk>)
    requires 0 <= pr.bytesRead
    requires pr.bytesRead + Sum(chunks) <= MaxInt64
    ensures WriteAll(pr, chunks).pr.bytesRead == pr.bytesRead + Sum(chunks)
    decreases |chunks|
  {
    if |chunks| > 0 {
      var init := chunks[..|chunks| - 1];
      WriteAllCounts(pr, init);
    }
  }

  /** Whatever the counters, `BytesRead` ends as the `int64` wrap-around of its
      start plus every byte written. */
  lemma {:induction false} WriteAllWraps(pr: Progress, chunks: seq<Chunk>)
    ensures WriteAll(pr, chunks).pr.bytesRead == Wrap64(pr.bytesRead + Sum(chunks))
    decreases |chunks|
  {
    if |chunks| > 0 {
      var init := chunks[..|chunks| - 1];
      var last := chunks[|chunks| - 1];
      WriteAllWraps(pr, init);
      var before := WriteAll(pr, init).pr;
      assert WriteAll(pr, chunks).pr == Write(before, last).pr;
      WrapAdd(pr.bytesRead + Sum(init), |last|);
    } else {
      assert Wrap64(pr.bytesRead + Sum(chunks)) == Wrap64(pr.bytesRead);
    }
  }

  /** The lines of the first `k` writes do not depend on the writes after them. */
  lemma {:induction false} WriteAllPrefix(pr: Progress, chunks: seq<Chunk>, k: nat)
    requires k <= |chunks|
    ensures WriteAll(pr, chunks[..k]).log == WriteAll(pr, chunks).log[..k]
    decreases |chunks|
  {
    if k < |chunks| {
      var init := chunks[..|chunks| - 1];
      WriteAllPrefix(pr, init, k);
      assert init[..k] == chunks[..k];
    } else {
      assert chunks[..k] == chunks;
    }
  }

  /** The running count after the first `k` writes. */
  function Running(pr: Progress, chunks: seq<Chunk>, k: nat): int
    requires k <= |chunks|
  {
    pr.bytesRead + Sum(chunks[..k])
  }

  /** Write `i` prints `DONE!` exactly when the running count then equals the
      recorded total, and otherwise the running count. */
  lemma WriteAllLine(pr: Progress, chunks: seq<Chunk>, i: nat)
    requires 0 <= pr.bytesRead
    requires pr.bytesRead + Sum(chunks) <= MaxInt64
    requires i < |chunks|
    ensures WriteAll(pr, chunks).log[i] == Done <==> Running(pr, chunks, i + 1) == pr.totalSize
    ensures WriteAll(pr, chunks).log[i] != Done ==>
              WriteAll(pr, chunks).log[i] == InProgress(Running(pr, chunks, i + 1))
  {
    var upto := chunks[..i + 1];
    WriteAllPrefix(pr, chunks, i + 1);
    SumPrefix(chunks, i + 1);
    assert upto[..i] == chunks[..i];
    WriteAllCounts(pr, upto[..i]);
  }

  /** With non-empty chunks the running count strictly grows, so `DONE!` is
      printed at most once per copy. */
  lemma DoneAtMostOnce(pr: Progress, chunks: seq<Chunk>, i: nat, j: nat)
    requires 0 <= pr.bytesRead
    requires pr.bytesRead + Sum(chunks) <= MaxInt64
    requires i < j < |chunks|
    ensures !(WriteAll(pr, chunks).log[i] == Done && WriteAll(pr, chunks).log[j] == Done)
  {
    WriteAllLine(pr, chunks, i);
    WriteAllLine(pr, chunks, j);
    var upto := chunks[..j + 1];
    SumPrefix(upto, i + 1);
    assert upto[..i + 1] == chunks[..i + 1];
    SumPrefix(chunks, j + 1);
    SumPrefix(upto, j);
    assert upto[..j] == chunks[..j];
    SumPrefix(chunks[..j], i + 1);
    assert chunks[..j][..i + 1] == chunks[..i + 1];
  }

  /** A fresh observer whose recorded size equals the bytes actually copied
      prints `DONE!` on the last write, and on no earlier one. */
  lemma DoneOnLastWrite(size: Int64, chunks: seq<Chunk>)
    requires 0 < |chunks|
    requires Sum(chunks) == size
    ensures WriteAll(Start(size), chunks).log[|chunks| - 1] == Done
    ensures forall i :: 0 <= i < |chunks| - 1 ==> WriteAll(Start(size), chunks).log[i] != Done
  {
    assert chunks[..|chunks|] == chunks;
    WriteAllLine(Start(size), chunks, |chunks| - 1);
    forall i | 0 <= i < |chunks| - 1
      ensures WriteAll(Start(size), chunks).log[i] != Done
    {
      DoneAtMostOnce(Start(size), chunks, i, |chunks| - 1);
    }
  }

  /** A recorded size that no running count reaches (larger than the bytes
      copied, or not above the starting count) never produces `DONE!`. */
  lemma NeverDoneWhenSizeUnreached(pr: Progress, chunks: seq<Chunk>)
    requires 0 <= pr.bytesRead
    requires pr.bytesRead + Sum(chunks) <= MaxInt64
    requires pr.totalSize <= pr.bytesRead || pr.bytesRead + Sum(chunks) < pr.totalSize
    ensures forall i :: 0 <= i < |chunks| ==> WriteAll(pr, chunks).log[i] != Done
  {
    forall i | 0 <= i < |chunks|
      ensures WriteAll(pr, chunks).log[i] != Done
    {
      WriteAllLine(pr, chunks, i);
      SumPrefix(chunks, i + 1);
      SumPrefix(chunks[..i + 1], i);
      assert chunks[..i + 1][..i] == chunks[..i];
    }
  }
}

=== FILE: upload.dfy ===
/**
  The POST branch of `uploadHandler`: every part submitted under the form
  field `file` goes through a fixed sequence of checks and I/O steps. The
  first step that fails ends the request with an HTTP error. If every part
  is stored, the answer is a redirect to `/`.

  Each I/O step of a part (open, read of the 512-byte prefix, seek, directory
  creation, file creation, copy) is an input outcome of that part. The
  `UnixNano` clock reading for the part is an input too. Content sniffing
  (`http.DetectContentType`) is an arbitrary function on 512-byte buffers.
 */
module Upload {
  import opened GoTypes
  import opened ProgressSink
  import opened Naming

  /** `MAX_UPLOAD_SIZE`: 1 MiB, the largest recorded part size accepted. */
  const MaxUploadSize: int := 1024 * 1024

  /** The sniffed types a part may have to be stored. */
  const AllowedTypes: set<string> := {"image/jpeg", "image/png"}

  const StatusFound: int := 302
  const StatusBadRequest: int := 400
  const StatusInternalServerError: int := 500

  const NotAllowedMessage: string :=
    "The provided file format is not allowed. Please upload a JPEG or PNG image"

  const SuccessBody: string := "Upload successful"

  /** The error text for a part whose recorded size is over the limit. */
  function TooBigMessage(filename: string): string
  {
    "The uploaded image is too big: " + filename + ". Please use an image less than 1MB in size"
  }

  /** The buffer handed to content sniffing: exactly 512 bytes. */
  type Buffer = b: seq<byte> | |b| == 512 witness seq(512, _ => 0)

  /** What one `Read` into the buffer can deliver: at most 512 bytes. */
  type Prefix = d: seq<byte> | |d| <= 512

  /** The result of an I/O call that returns only an `error`. */
  datatype IoResult = Ok | IoErr(message: string)

  /** The result of `file.Read(buff)`: the bytes it placed in the buffer, or an error. */
  datatype ReadResult = ReadOk(data: Prefix) | ReadErr(message: string)

  /** The result of `io.Copy`: the chunks read from the part and passed through
      the progress observer, then either success or the error that stopped it. */
  datatype CopyResult = CopyResult(chunks: seq<Chunk>, failure: Option<string>)

  /** The outcome of every I/O step the handler may perform for one part, and
      the clock reading taken when its destination is named. */
  datatype PartEnv = PartEnv(
    open: IoResult,
    read: ReadResult,
    seek: IoResult,
    mkdir: IoResult,
    now: Int64,
    create: IoResult,
    copy: CopyResult)

  /** What the multipart reader records about a part (`multipart.FileHeader`):
      its file name and its size in bytes. */
  datatype FileHeader = FileHeader(filename: string, size: Int64)

  datatype Part = Part(header: FileHeader, env: PartEnv)

  /** The parsed multipart form: the parts submitted under each field name. */
  datatype Form = Form(files: map<string, seq<Part>>)

  /** The result of `ParseMultipartForm`. */
  datatype ParseResult = Parsed(form: Form) | ParseFailed(message: string)

  /** The steps of the per-part pipeline, in the order the handler runs them. */
  datatype Step = SizeCheck | Open | ReadPrefix | TypeCheck | SeekStart | MakeDir | Create | Copy

  /** Position of a step in the pipeline. */
  function Rank(s: Step): nat
  {
    match s
    case SizeCheck => 0
    case Open => 1
    case ReadPrefix => 2
    case TypeCheck => 3
    case SeekStart => 4
    case MakeDir => 5
    case Create => 6
    case Copy => 7
  }

  /** The HTTP status the handler answers with when a step fails. */
  function StatusOf(s: Step): (c: int)
    ensures c == StatusBadRequest || c == StatusInternalServerError
    ensures c == StatusInternalServerError <==> s == Open || s == ReadPrefix || s == SeekStart || s == MakeDir
    ensures s == Create || s == Copy ==> c == StatusBadRequest
  {
    match s
    case SizeCheck => StatusBadRequest
    case Open => StatusInternalServerError
    case ReadPrefix => StatusInternalServerError
    case TypeCheck => StatusBadRequest
    case SeekStart => StatusInternalServerError
    case MakeDir => StatusInternalServerError
    case Create => StatusBadRequest
    case Copy => StatusBadRequest
  }

  datatype Verdict = Accepted | Rejected(step: Step, message: string)

  /** A file that was written completely. */
  datatype StoredFile = StoredFile(path: string, content: seq<byte>)

  /** What handling one part did. `partOpened` tells whether the part's content
      was opened. `created` is the destination file if one was created.
      `stored` is that file if its copy completed. `log` holds the progress
      lines printed during the copy. */
  datatype PartOutcome = PartOutcome(
    verdict: Verdict,
    partOpened: bool,
    created: Option<string>,
    stored: Option<StoredFile>,
    log: seq<Line>)

  datatype Response =
    | Redirect(code: int, location: string, body: string)
    | HttpError(code: int, message: string)

  /** The answer to a request after all its parts were handled. */
  datatype Outcome = Outcome(response: Response, processed: seq<PartOutcome>)

  /** The buffer after `Read` filled its prefix: the rest keeps the zeros of `make([]byte, 512)`. */
  function Pad(data: Prefix): (b: Buffer)
    ensures b[..|data|] == data
    ensures forall i :: |data| <= i < 512 ==> b[i] == 0
  {
    data + seq(512 - |data|, _ => 0)
  }

  /** Concatenation of the chunks a copy wrote. */
  function Concat(chunks: seq<Chunk>): seq<byte>
  {
    if |chunks| == 0 then [] else Concat(chunks[..|chunks| - 1]) + chunks[|chunks| - 1]
  }

  function Reject(step: Step, message: string, partOpened: bool): PartOutcome
  {
    PartOutcome(Rejected(step, message), partOpened, None, None, [])
  }

  /** One iteration of the handler's loop over the `file` parts. */
  function ProcessPart(p: Part, sniff: Buffer -> string): (r: PartOutcome)
    ensures r.verdict.Accepted? <==> r.stored.Some?
    ensures r.stored.Some? ==> r.created == Some(r.stored.value.path)
    ensures r.created.Some? ==> r.partOpened
    ensures r.partOpened <==> !(r.verdict.Rejected? && (r.verdict.step == SizeCheck || r.verdict.step == Open))
    ensures r.log != [] ==> r.created.Some?
    ensures r.verdict.Rejected? && r.verdict.step == SizeCheck ==> !r.partOpened
    ensures r.verdict.Rejected? ==> (r.created.Some? <==> r.verdict.step == Copy)
  {
    var h := p.header;
    var e := p.env;
    if h.size > MaxUploadSize then Reject(SizeCheck, TooBigMessage(h.filename), false)
    else if e.open.IoErr? then Reject(Open, e.open.message, false)
    else if e.read.ReadErr? then Reject(ReadPrefix, e.read.message, true)
    else if sniff(Pad(e.read.data)) !in AllowedTypes then Reject(TypeCheck, NotAllowedMessage, true)
    else if e.seek.IoErr? then Reject(SeekStart, e.seek.message, true)
    else if e.mkdir.IoErr? then Reject(MakeDir, e.mkdir.message, true)
    else if e.create.IoErr? then Reject(Create, e.create.message, true)
    else
      var path := DestPath(e.now, h.filename);
      var log := WriteAll(Start(h.size), e.copy.chunks).log;
      match e.copy.failure
      case Some(m) => PartOutcome(Rejected(Copy, m), true, Some(path), None, log)
      case None => PartOutcome(Accepted, true, Some(path), Some(StoredFile(path, Concat(e.copy.chunks))), log)
  }

  /** The response that ends a request whose part was rejected with `v`. */
  function ErrorResponse(v: Verdict): Response
    requires v.Rejected?
  {
    HttpError(StatusOf(v.step), v.message)
  }

  /** The response to a request whose every part was stored. */
  const Success: Response := Redirect(StatusFound, "/", SuccessBody)

  /** The handler's loop over the parts, for any per-part handling `handle`:
      each part is handled in turn until one is rejected. */
  function RunParts(parts: seq<Part>, handle: Part -> PartOutcome): (o: Outcome)
    ensures |o.processed| <= |parts|
    ensures 0 < |parts| ==> 0 < |o.processed|
    ensures forall i :: 0 <= i < |o.processed| ==> o.processed[i] == handle(parts[i])
    ensures forall i :: 0 <= i < |o.processed| - 1 ==> o.processed[i].verdict.Accepted?
    ensures o.response.Redirect? ==>
              o.response == Success && |o.processed| == |parts| &&
              (0 < |parts| ==> o.processed[|parts| - 1].verdict.Accepted?)
    ensures o.response.HttpError? ==>
              0 < |o.processed| &&
              o.processed[|o.processed| - 1].verdict.Rejected? &&
              o.response == ErrorResponse(o.processed[|o.processed| - 1].verdict)
    decreases |parts|
  {
    if |parts| == 0 then Outcome(Success, [])
    else
      var before := RunParts(parts[..|parts| - 1], handle);
      if before.response.HttpError? then before
      else
        var last := handle(parts[|parts| - 1]);
        var response := if last.verdict.Rejected? then ErrorResponse(last.verdict) else Success;
        Outcome(response, before.processed + [last])
  }

  /** The loop runs to the end and redirects exactly when every part is accepted. */
  lemma RunPartsAcceptsAll(parts: seq<Part>, handle: Part -> PartOutcome)
    ensures RunParts(parts, handle).response.Redirect? <==>
              forall i :: 0 <= i < |parts| ==> handle(parts[i]).verdict.Accepted?
  {
  }

  /** The first rejected part ends the loop: exactly the parts up to it are
      handled, and its failure is the answer. */
  lemma RunPartsStops(parts: seq<Part>, handle: Part -> PartOutcome, k: nat)
    requires k < |parts|
    requires handle(parts[k]).verdict.Rejected?
    requires forall i :: 0 <= i < k ==> handle(parts[i]).verdict.Accepted?
    ensures |RunParts(parts, handle).processed| == k + 1
    ensures RunParts(parts, handle).response == ErrorResponse(handle(parts[k]).verdict)
  {
  }

  /** The loop over the `file` parts as the handler runs it. */
  function ProcessParts(parts: seq<Part>, sniff: Buffer -> string): (o: Outcome)
    ensures |o.processed| <= |parts|
    ensures forall i :: 0 <= i < |o.processed| ==> o.processed[i] == ProcessPart(parts[i], sniff)
  {
    RunParts(parts, p => ProcessPart(p, sniff))
  }

  /** The parts submitted under the field name `file`; none when it is absent. */
  function FileParts(form: Form): (ps: seq<Part>)
    ensures ps == [] <==> "file" !in form.files || form.files["file"] == []
    ensures "file" in form.files ==> ps == form.files["file"]
  {
    if "file" in form.files then form.files["file"] else []
  }

  /** `uploadHandler` for any method other than GET. */
  function HandlePost(parsed: ParseResult, sniff: Buffer -> string): (o: Outcome)
    ensures parsed.ParseFailed? ==> o == Outcome(HttpError(StatusBadRequest, parsed.message), [])
    ensures parsed.Parsed? ==>
              var ps := FileParts(parsed.form);
              |o.processed| <= |ps| &&
              (forall i :: 0 <= i < |o.processed| ==> o.processed[i] == ProcessPart(ps[i], sniff)) &&
              (o.response.Redirect? <==> forall i :: 0 <= i < |ps| ==> ProcessPart(ps[i], sniff).verdict.Accepted?)
  {
    match parsed
    case ParseFailed(m) => Outcome(HttpError(StatusBadRequest, m), [])
    case Parsed(form) =>
      RunPartsAcceptsAll(FileParts(form), p => ProcessPart(p, sniff));
      ProcessParts(FileParts(form), sniff)
  }
}

=== FILE: upload_properties.dfy ===
/**
  What the upload handler guarantees: the order of its checks, the status each
  failure maps to, the size limit and type allow-list, short-circuiting without
  rollback, and the shape and content of the files it stores.
 */
module UploadProperties {
  import opened GoTypes
  import opened ProgressSink
  import opened Naming
  import opened Upload

  /** Step `s` would fail for part `p`, judged on that step's own input alone. */
  predicate Fails(p: Part, s: Step, sniff: Buffer -> string)
  {
    match s
    case SizeCheck => p.header.size > MaxUploadSize
    case Open => p.env.open.IoErr?
    case ReadPrefix => p.env.read.ReadErr?
    case TypeCheck => p.env.read.ReadOk? && sniff(Pad(p.env.read.data)) !in AllowedTypes
    case SeekStart => p.env.seek.IoErr?
    case MakeDir => p.env.mkdir.IoErr?
    case Create => p.env.create.IoErr?
    case Copy => p.env.copy.failure.Some?
  }

  /** A part is rejected at step `s` exactly when `s` fails and no step before it does. */
  lemma RejectedAtFirstFailure(p: Part, sniff: Buffer -> string, s: Step)
    ensures (ProcessPart(p, sniff).verdict.Rejected? && ProcessPart(p, sniff).verdict.step == s)
            <==> Fails(p, s, sniff) && forall t :: Rank(t) < Rank(s) ==> !Fails(p, t, sniff)
  {
    if Fails(p, s, sniff) && forall t :: Rank(t) < Rank(s) ==> !Fails(p, t, sniff) {
      assert Rank(SizeCheck) < Rank(s) ==> !Fails(p, SizeCheck, sniff);
      assert Rank(Open) < Rank(s) ==> !Fails(p, Open, sniff);
      assert Rank(ReadPrefix) < Rank(s) ==> !Fails(p, ReadPrefix, sniff);
      assert Rank(TypeCheck) < Rank(s) ==> !Fails(p, TypeCheck, sniff);
      assert Rank(SeekStart) < Rank(s) ==> !Fails(p, SeekStart, sniff);
      assert Rank(MakeDir) < Rank(s) ==> !Fails(p, MakeDir, sniff);
      assert Rank(Create) < Rank(s) ==> !Fails(p, Create, sniff);
    }
  }

  /** A part rejected at an I/O step answers with the error text of the call
      that failed; a failed copy answers with the error that stopped it. */
  lemma RejectionMessage(p: Part, sniff: Buffer -> string)
    ensures var v := ProcessPart(p, sniff).verdict;
            v.Rejected? && v.step == Open ==> p.env.open.IoErr? && v.message == p.env.open.message
    ensures var v := ProcessPart(p, sniff).verdict;
            v.Rejected? && v.step == ReadPrefix ==> p.env.read.ReadErr? && v.message == p.env.read.message
    ensures var v := ProcessPart(p, sniff).verdict;
            v.Rejected? && v.step == SeekStart ==> p.env.seek.IoErr? && v.message == p.env.seek.message
    ensures var v := ProcessPart(p, sniff).verdict;
            v.Rejected? && v.step == MakeDir ==> p.env.mkdir.IoErr? && v.message == p.env.mkdir.message
    ensures var v := ProcessPart(p, sniff).verdict;
            v.Rejected? && v.step == Create ==> p.env.create.IoErr? && v.message == p.env.create.message
    ensures var v := ProcessPart(p, sniff).verdict;
            v.Rejected? && v.step == Copy ==> p.env.copy.failure == Some(v.message)
  {
  }

  /** A part is accepted exactly when none of its steps fails. */
  lemma AcceptedIffNoStepFails(p: Part, sniff: Buffer -> string)
    ensures ProcessPart(p, sniff).verdict.Accepted? <==> forall s :: !Fails(p, s, sniff)
  {
    if !ProcessPart(p, sniff).verdict.Accepted? {
      RejectedAtFirstFailure(p, sniff, ProcessPart(p, sniff).verdict.step);
    }
  }

  /** A recorded size over 1 MiB, and only that, rejects the part at the first
      check, naming the file, before the part is opened or anything is created.
      A size of exactly 1 MiB passes this check. */
  lemma SizeLimit(p: Part, sniff: Buffer -> string)
    ensures MaxUploadSize == 1048576
    ensures ProcessPart(p, sniff).verdict == Rejected(SizeCheck, TooBigMessage(p.header.filename))
            <==> p.header.size > MaxUploadSize
    ensures p.header.size > MaxUploadSize ==>
              !ProcessPart(p, sniff).partOpened && ProcessPart(p, sniff).created == None &&
              ErrorResponse(ProcessPart(p, sniff).verdict).code == 400
    ensures p.header.size == MaxUploadSize ==>
              !(ProcessPart(p, sniff).verdict.Rejected? && ProcessPart(p, sniff).verdict.step == SizeCheck)
  {
  }

  /** A part is stored only if the type sniffed from its 512-byte buffer is
      `image/jpeg` or `image/png`; an opened part of any other type is rejected
      with 400 and the fixed message. */
  lemma TypeAllowList(p: Part, sniff: Buffer -> string)
    ensures ProcessPart(p, sniff).stored.Some? ==>
              p.env.read.ReadOk? &&
              (sniff(Pad(p.env.read.data)) == "image/jpeg" || sniff(Pad(p.env.read.data)) == "image/png")
    ensures p.header.size <= MaxUploadSize && p.env.open.Ok? && p.env.read.ReadOk? &&
            sniff(Pad(p.env.read.data)) != "image/jpeg" && sniff(Pad(p.env.read.data)) != "image/png" ==>
              ProcessPart(p, sniff).verdict == Rejected(TypeCheck, NotAllowedMessage) &&
              StatusOf(TypeCheck) == 400
  {
  }

  /** The step kinds whose failure the handler reports as a server error. */
  predicate ServerSide(s: Step)
  {
    s == Open || s == ReadPrefix || s == SeekStart || s == MakeDir
  }

  /** The codes of the loop's answer, whatever each part's handling does:
      302 for the redirect, and the status of the last handled part's failed
      step otherwise. */
  lemma LoopStatus(parts: seq<Part>, handle: Part -> PartOutcome)
    ensures var o := RunParts(parts, handle);
            o.response.code == 302 <==> o.response == Success
    ensures var o := RunParts(parts, handle);
            o.response.code == 500 <==>
              0 < |o.processed| && o.processed[|o.processed| - 1].verdict.Rejected? &&
              ServerSide(o.processed[|o.processed| - 1].verdict.step)
    ensures var o := RunParts(parts, handle);
            o.response.code == 400 <==>
              0 < |o.processed| && o.processed[|o.processed| - 1].verdict.Rejected? &&
              !ServerSide(o.processed[|o.processed| - 1].verdict.step)
  {
  }

  /** The status of every answer: 302 when all parts were stored; 500 when the
      first rejected part failed to open, to read its prefix, to seek back or
      to create the directory; 400 for a form that does not parse and for a
      part rejected for its size, its type, or a failed create or copy. */
  lemma StatusMapping(parsed: ParseResult, sniff: Buffer -> string)
    ensures var o := HandlePost(parsed, sniff);
            o.response.code == 302 || o.response.code == 400 || o.response.code == 500
    ensures var o := HandlePost(parsed, sniff);
            o.response.code == 302 <==> o.response == Success
    ensures var o := HandlePost(parsed, sniff);
            o.response.code == 500 <==>
              0 < |o.processed| && o.processed[|o.processed| - 1].verdict.Rejected? &&
              ServerSide(o.processed[|o.processed| - 1].verdict.step)
    ensures var o := HandlePost(parsed, sniff);
            o.response.code == 400 <==>
              parsed.ParseFailed? ||
              (0 < |o.processed| && o.processed[|o.processed| - 1].verdict.Rejected? &&
               !ServerSide(o.processed[|o.processed| - 1].verdict.step))
  {
    if parsed.Parsed? {
      LoopStatus(FileParts(parsed.form), p => ProcessPart(p, sniff));
    }
  }

  /** The destination path of a part. */
  function PathOf(p: Part): string
  {
    DestPath(p.env.now, p.header.filename)
  }

  /** The destination paths of a sequence of parts, in order. */
  function PathsOf(parts: seq<Part>): seq<string>
  {
    MapParts(parts, PathOf)
  }

  /** `f` applied to each part, in order. */
  function MapParts(parts: seq<Part>, f: Part -> string): seq<string>
  {
    seq(|parts|, i requires 0 <= i < |parts| => f(parts[i]))
  }

  /** The files a request left on disk, in the order they were created. */
  function Written(processed: seq<PartOutcome>): seq<string>
  {
    if |processed| == 0 then []
    else
      var last := processed[|processed| - 1];
      Written(processed[..|processed| - 1]) + (if last.created.Some? then [last.created.value] else [])
  }

  /** Outcomes that each created the file at the matching entry of `paths`
      leave exactly those files on disk, in order. */
  lemma {:induction false} WrittenPaths(processed: seq<PartOutcome>, paths: seq<string>, j: nat)
    requires j <= |processed| && j <= |paths|
    requires forall i :: 0 <= i < j ==> processed[i].created == Some(paths[i])
    ensures Written(processed[..j]) == paths[..j]
    decreases j
  {
    if j > 0 {
      WrittenPaths(processed, paths, j - 1);
      assert processed[..j][..j - 1] == processed[..j - 1];
    }
  }

  /** For any per-part handling that creates the file `dest(p)` whenever it
      accepts part `p`: when the first `j` parts are accepted, all of them are
      handled and each leaves exactly its own file, in order. */
  lemma WrittenOfRun(parts: seq<Part>, handle: Part -> PartOutcome, dest: Part -> string, j: nat)
    requires forall p :: handle(p).verdict.Accepted? ==> handle(p).created == Some(dest(p))
    requires j <= |parts|
    requires forall i :: 0 <= i < j ==> handle(parts[i]).verdict.Accepted?
    ensures j <= |RunParts(parts, handle).processed|
    ensures Written(RunParts(parts, handle).processed[..j]) == MapParts(parts[..j], dest)
  {
    var o := RunParts(parts, handle);
    WrittenPaths(o.processed, MapParts(parts, dest), j);
    assert MapParts(parts, dest)[..j] == MapParts(parts[..j], dest);
  }

  /** When the first `j` parts are accepted, all of them are handled and each
      leaves exactly its own destination file on disk, in order. */
  lemma WrittenPrefix(parts: seq<Part>, sniff: Buffer -> string, j: nat)
    requires j <= |parts|
    requires forall i :: 0 <= i < j ==> ProcessPart(parts[i], sniff).verdict.Accepted?
    ensures j <= |ProcessParts(parts, sniff).processed|
    ensures Written(ProcessParts(parts, sniff).processed[..j]) == PathsOf(parts[..j])
  {
    var handle := p => ProcessPart(p, sniff);
    forall q | handle(q).verdict.Accepted?
      ensures handle(q).created == Some(PathOf(q))
    {
      CreatedPath(q, sniff);
    }
    WrittenOfRun(parts, handle, PathOf, j);
  }

  /** Every stored file sits at its part's destination path and holds every
      byte the copy read. */
  lemma StoredFileOf(p: Part, sniff: Buffer -> string)
    requires ProcessPart(p, sniff).stored.Some?
    ensures ProcessPart(p, sniff).stored.value.path == PathOf(p)
    ensures ProcessPart(p, sniff).stored.value.content == Concat(p.env.copy.chunks)
  {
    var h, e := p.header, p.env;
    assert !(h.size > MaxUploadSize) && e.open.Ok? && e.read.ReadOk?;
    assert e.seek.Ok? && e.mkdir.Ok? && e.create.Ok? && e.copy.failure.None?;
  }

  /** The first rejected part fixes the answer, and the loop stops right after
      it: the parts after it are never opened. */
  lemma ShortCircuit(parts: seq<Part>, sniff: Buffer -> string, k: nat)
    requires k < |parts|
    requires ProcessPart(parts[k], sniff).verdict.Rejected?
    requires forall i :: 0 <= i < k ==> ProcessPart(parts[i], sniff).verdict.Accepted?
    ensures |ProcessParts(parts, sniff).processed| == k + 1
    ensures ProcessParts(parts, sniff).response == ErrorResponse(ProcessPart(parts[k], sniff).verdict)
  {
    RunPartsStops(parts, p => ProcessPart(p, sniff), k);
  }

  /** Every part handled before the last one was stored completely, and its
      file stays whatever happens to the parts after it: nothing is rolled back. */
  lemma NoRollback(parts: seq<Part>, sniff: Buffer -> string)
    ensures forall i :: 0 <= i < |ProcessParts(parts, sniff).processed| - 1 ==>
              ProcessParts(parts, sniff).processed[i].stored ==
              Some(StoredFile(PathOf(parts[i]), Concat(parts[i].env.copy.chunks)))
  {
    var processed := ProcessParts(parts, sniff).processed;
    forall i | 0 <= i < |processed| - 1
      ensures processed[i].stored == Some(StoredFile(PathOf(parts[i]), Concat(parts[i].env.copy.chunks)))
    {
      StoredFileOf(parts[i], sniff);
    }
  }

  /** The files on disk after a request: one per part handled before the last,
      plus the last part's file when it was created (stored, or left partial by
      a failed copy). */
  lemma FilesLeftOnDisk(parts: seq<Part>, sniff: Buffer -> string)
    requires 0 < |parts|
    ensures var processed := ProcessParts(parts, sniff).processed;
            var n := |processed| - 1;
            Written(processed) ==
              PathsOf(parts[..n]) + (if processed[n].created.Some? then [PathOf(parts[n])] else [])
  {
    var processed := ProcessParts(parts, sniff).processed;
    var n := |processed| - 1;
    assert forall i :: 0 <= i < n ==> ProcessPart(parts[i], sniff).verdict.Accepted?;
    WrittenPrefix(parts, sniff, n);
    var last := processed[n];
    assert Written(processed) ==
             Written(processed[..n]) + (if last.created.Some? then [last.created.value] else []);
    assert last == ProcessPart(parts[n], sniff);
    if last.created.Some? {
      CreatedPath(parts[n], sniff);
    }
  }

  /** The request is answered with the redirect exactly when every `file`
      part is accepted. */
  lemma RedirectIffAllAccepted(parts: seq<Part>, sniff: Buffer -> string)
    ensures ProcessParts(parts, sniff).response.Redirect? <==>
              forall i :: 0 <= i < |parts| ==> ProcessPart(parts[i], sniff).verdict.Accepted?
  {
    RunPartsAcceptsAll(parts, p => ProcessPart(p, sniff));
  }

  /** When every part passes every step, all of them are stored and the answer
      is the redirect to `/`. */
  lemma AllStored(parts: seq<Part>, sniff: Buffer -> string)
    requires forall i :: 0 <= i < |parts| ==> ProcessPart(parts[i], sniff).verdict.Accepted?
    ensures ProcessParts(parts, sniff).response == Redirect(302, "/", "Upload successful")
    ensures Written(ProcessParts(parts, sniff).processed) == PathsOf(parts)
  {
    var processed := ProcessParts(parts, sniff).processed;
    RunPartsAcceptsAll(parts, p => ProcessPart(p, sniff));
    WrittenPrefix(parts, sniff, |parts|);
    assert processed[..|parts|] == processed;
    assert parts[..|parts|] == parts;
  }

  /** A form without any `file` part is a success: the loop body never runs. */
  lemma NoFilePartsRedirects(form: Form, sniff: Buffer -> string)
    requires "file" !in form.files || form.files["file"] == []
    ensures HandlePost(Parsed(form), sniff) == Outcome(Redirect(302, "/", "Upload successful"), [])
  {
  }

  /** A stored part's path is `./uploads/`, then the clock reading in decimal,
      then the extension of the recorded filename. The name can be read back
      into exactly those two pieces. */
  lemma DestinationShape(p: Part, sniff: Buffer -> string)
    requires ProcessPart(p, sniff).created.Some?
    ensures ProcessPart(p, sniff).created.value ==
              "./uploads/" + Decimal(p.env.now) + Ext(p.header.filename)
    ensures ParseDestPath(ProcessPart(p, sniff).created.value) ==
              Some(StoredName(p.env.now, Ext(p.header.filename)))
  {
    CreatedPath(p, sniff);
    assert DirPrefix == "./uploads/";
    DestPathRoundTrip(p.env.now, p.header.filename);
  }

  /** The only file a part can create is its destination path. */
  lemma CreatedPath(p: Part, sniff: Buffer -> string)
    requires ProcessPart(p, sniff).created.Some?
    ensures ProcessPart(p, sniff).created.value == PathOf(p)
  {
    var h, e := p.header, p.env;
    assert !(h.size > MaxUploadSize) && e.open.Ok? && e.read.ReadOk?;
    assert e.seek.Ok? && e.mkdir.Ok? && e.create.Ok?;
  }

  /** Two parts whose files were created at different clock readings get different files. */
  lemma DistinctStampsDistinctFiles(p1: Part, p2: Part, sniff: Buffer -> string)
    requires ProcessPart(p1, sniff).created.Some? && ProcessPart(p2, sniff).created.Some?
    requires p1.env.now != p2.env.now
    ensures ProcessPart(p1, sniff).created.value != ProcessPart(p2, sniff).created.value
  {
    CreatedPath(p1, sniff);
    CreatedPath(p2, sniff);
    if PathOf(p1) == PathOf(p2) {
      DestPathInjective(p1.env.now, p1.header.filename, p2.env.now, p2.header.filename);
    }
  }

  lemma {:induction false} ConcatLength(chunks: seq<Chunk>)
    ensures |Concat(chunks)| == Sum(chunks)
    decreases |chunks|
  {
    if |chunks| > 0 {
      ConcatLength(chunks[..|chunks| - 1]);
    }
  }

  /** The copy of a stored part goes through a fresh `Progress` holding the
      recorded size. Its final count is the length of the stored file, whatever
      size was recorded. It prints `DONE!` once, on the last write, when the
      recorded size is the number of bytes copied. It never prints it when the
      recorded size is larger than that or not positive. */
  lemma StoredPartProgress(p: Part, sniff: Buffer -> string)
    requires ProcessPart(p, sniff).stored.Some?
    requires Sum(p.env.copy.chunks) <= MaxInt64
    ensures ProcessPart(p, sniff).log == WriteAll(Start(p.header.size), p.env.copy.chunks).log
    ensures WriteAll(Start(p.header.size), p.env.copy.chunks).pr.bytesRead ==
              |ProcessPart(p, sniff).stored.value.content|
    ensures 0 < |p.env.copy.chunks| && Sum(p.env.copy.chunks) == p.header.size ==>
              ProcessPart(p, sniff).log[|p.env.copy.chunks| - 1] == Done &&
              forall i :: 0 <= i < |p.env.copy.chunks| - 1 ==> ProcessPart(p, sniff).log[i] != Done
    ensures p.header.size <= 0 || Sum(p.env.copy.chunks) < p.header.size ==>
              forall i :: 0 <= i < |p.env.copy.chunks| ==> ProcessPart(p, sniff).log[i] != Done
  {
    var chunks := p.env.copy.chunks;
    var h, e := p.header, p.env;
    assert !(h.size > MaxUploadSize) && e.open.Ok? && e.read.ReadOk?;
    assert e.seek.Ok? && e.mkdir.Ok? && e.create.Ok? && e.copy.failure.None?;
    WriteAllCounts(Start(p.header.size), chunks);
    ConcatLength(chunks);
    if 0 < |chunks| && Sum(chunks) == p.header.size {
      DoneOnLastWrite(p.header.size, chunks);
    }
    if p.header.size <= 0 || Sum(chunks) < p.header.size {
      NeverDoneWhenSizeUnreached(Start(p.header.size), chunks);
    }
  }

  /** Whenever a destination file was created, the copy into it ran through a
      fresh observer for the part's recorded size, whether the copy completed or
      failed: the lines printed are those of the chunks it read. */
  lemma CopyProgress(p: Part, sniff: Buffer -> string)
    requires ProcessPart(p, sniff).created.Some?
    ensures ProcessPart(p, sniff).log == WriteAll(Start(p.header.size), p.env.copy.chunks).log
  {
    var h, e := p.header, p.env;
    assert !(h.size > MaxUploadSize) && e.open.Ok? && e.read.ReadOk?;
    assert e.seek.Ok? && e.mkdir.Ok? && e.create.Ok?;
  }
}
